=== FILE: README.md ===
# tempus-map-updater reconciliation, in Dafny

A game server keeps a directory of `.bsp` map files. This project models how
tempus-map-updater keeps that directory in line with a remote collection of
`.bz2` map archives, and proves properties of the model. Each reconciliation
pass (`MapUpdater._checkMaps`) works in five steps:

1. It fetches a listing, either from an HTML directory index
   (`WebListUpdater`) or from an S3 ListBucket document (`S3Updater`).
2. It adds any names the caller forces.
3. It diffs the listing against the local inventory. A local map
   `m.bsp` has the key `lower(m.bsp) + ".bz2"`.
4. When `deleteIfNotPresent` is set, it deletes the local maps that no
   remote name matches.
5. It downloads every missing archive (`_fetchMap`: stage in the
   `mapupdater/` scratch directory, unpack, move into place) and then
   touches the `tempus_map_updater_run_once` sentinel.

A WAMP "upload finished" event (`MapUpdaterComponent.onUploadFinished`)
starts a pass. Each uploaded name ending in `.bsp` becomes a forced name.

Modules, one per concern:

- `Wrappers`: `Option` and `Result`.
- `Strings`: Python 2 byte-string `startswith`, `endswith`, ASCII `lower`
  and `replace`.
- `Seqs`: the order-keeping filter and `list(set(...))`.
- `Files`: the maps directory's children and the scratch files.
- `Listing`: both `parseMapList` implementations and `getMapList`.
- `Diff`: the inventory, `missing`, `delete` and the delete phase.
- `Fetch`: one download as a filesystem transition, and a batch of them.
- `Updater`: the constructors and the pass.
- `Component`: the forced names of an upload event.

The world outside the updater becomes inputs to the model:

- The HTTP reply to the listing request is a `Reply`. It holds the status
  code, the anchors' hrefs and the parsed XML tree.
- Each download is a `Download`. It records how the transfer went and what
  `aunpack` left behind.

Some consequences of the code are easy to miss:

- The sentinel is touched after a pass whose downloads failed inside the
  errback (`SentinelDespiteBrokenDownloads`). Only a download that raises
  keeps it from being touched (`NoSentinelUnlessUpToDate`).
- The status code of a map download is never checked.
- The `missing` list keeps each remote name's original case. In a pass
  without forced names it also keeps the listing's order, duplicates
  included. Two S3 keys that strip to the same name list it twice
  (`DuplicateNameListedTwice`), so it is fetched twice. With forced names
  the listing first goes through `list(set(...))` (see `Diff.EffectiveRemote`
  under Left out).

## Model

| member | source | states |
|---|---|---|
| Strings.ReplaceAll | mapupdater/updater.py:97-99 | `str.replace` removing a non-empty pattern never lengthens the name and introduces no character that was not there |
| Strings.ReplaceAbsent | mapupdater/updater.py:203 | replacing a pattern that does not occur leaves the string unchanged |
| Strings.ReplaceTrailingPattern | mapupdater/updater.py:97 | `(x + pat).replace(pat, rep)` is `x + rep` when `x` is free of `pat` and `pat`'s first character does not recur in it |
| Strings.ReplaceLeadingPattern | mapupdater/updater.py:203 | a leading occurrence is replaced and the left-to-right scan resumes right after it |
| Seqs.Filter | mapupdater/updater.py:46-49 | the loop keeps exactly the elements that pass the test, and never more elements than the input has |
| Seqs.FilterIsSubseq | mapupdater/updater.py:46-49 | the kept elements appear in their original order |
| Seqs.FilterCounts | mapupdater/updater.py:156-161 | each kept value occurs as often as in the input; a rejected value does not occur at all |
| Seqs.Dedup | mapupdater/updater.py:40 | `list(set(s))` has exactly the members of `s`, each once |
| Files.EnsureScratchDir | mapupdater/updater.py:88-90 | the scratch directory is created only when nothing is at its path; every existing child is kept as it was |
| Files.Touch | mapupdater/updater.py:72 | `touch` creates an empty file when the name is absent and otherwise changes no content |
| Files.RemoveChild | mapupdater/updater.py:58-63 | removing a child that is already gone is not an error and changes nothing |
| Listing.ParseWebList | mapupdater/updater.py:153-162 | the hrefs that end in "bsp.bz2" and contain no '/' are kept, in document order and with their multiplicity; the parse fails exactly when one of them is not ASCII |
| Listing.Keys | mapupdater/updater.py:199-201 | the keys are those of all `Contents` elements |
| Listing.BucketNames | mapupdater/updater.py:198-206 | every key that matches the prefix, ends in ".bsp.bz2" ignoring case and has no '/' once the prefix is stripped is listed under its stripped name; every listed name comes from such a key |
| Listing.BucketNamesStep | mapupdater/updater.py:200-206 | one more key appends its stripped name exactly when it is kept: names follow key order, once per kept key |
| Listing.KeysStep | mapupdater/updater.py:199-201 | keys are taken `Contents` element by element, in document order |
| Listing.FlatAndNestedKeysCollide | mapupdater/updater.py:202-206 | a key `p + x` and a key `p + p + x` under a '/'-containing prefix are both kept, and both list as `x` |
| Listing.DuplicateNameListedTwice | mapupdater/updater.py:199-206 | with prefix "maps/", the keys "maps/a.bsp.bz2" and "maps/maps/a.bsp.bz2" list "a.bsp.bz2" twice |
| Listing.ParseBucketList | mapupdater/updater.py:189-213 | a wrong root tag is an error; otherwise the listing succeeds exactly when some key is kept, and then it is non-empty, complete, drawn from the keys, and in key order with one entry per kept key |
| Listing.ListedNamesArePlain | mapupdater/updater.py:159 | no name either provider lists holds '/' (see also lines 204-205) |
| Listing.GetMapList | mapupdater/updater.py:177-186 | a failed request or a status of 400 or more is an error; otherwise the provider's parser decides (the web provider's `getMapList` at lines 141-150 is the same) |
| Listing.NestedPrefixStripped | mapupdater/updater.py:203 | `replace` strips both copies of a '/'-containing prefix from `p + p + x` |
| Listing.NestedKeyListedFlat | mapupdater/updater.py:202-205 | a key one level below the prefix passes the "no '/'" test and is listed under the flat name |
| Listing.NestedKeyExample | mapupdater/updater.py:202-206 | with prefix "maps/", the key "maps/maps/a.bsp.bz2" is listed as "a.bsp.bz2" |
| Listing.FlatKeyListed | mapupdater/updater.py:202-206 | a key directly under a '/'-terminated prefix is listed under its own name |
| Diff.EffectiveRemote | mapupdater/updater.py:39-40 | with no forced names the listing is used as is; otherwise the result holds exactly the listed and forced names, without duplicates |
| Diff.Missing | mapupdater/updater.py:46-49 | a remote name is missing exactly when no local map's key equals it lower-cased |
| Diff.Stale | mapupdater/updater.py:51-55 | a local map is to be deleted exactly when its key equals no lower-cased remote name |
| Diff.DeletePhase | mapupdater/updater.py:57-63 | with `deleteIfNotPresent` exactly the stale maps go; without it nothing changes; surviving children keep their contents |
| Diff.ComputeMissing | mapupdater/updater.py:44-49 | the loop builds `missing` as defined, in listing order |
| Diff.MissingStep | mapupdater/updater.py:47-49 | one more remote name extends `missing` by itself exactly when its key is not local |
| Diff.ComputeDelete | mapupdater/updater.py:51-55 | the loop builds exactly the stale set |
| Diff.RemoveStale | mapupdater/updater.py:57-63 | removing one stale map after another yields the delete phase |
| Diff.MissingInListingOrder | mapupdater/updater.py:46-49 | `missing` keeps the listing order |
| Diff.ForcedNameIsRemote | mapupdater/updater.py:39-49 | a forced name that no local map matches is fetched |
| Diff.ForcedNameProtectsLocalMap | mapupdater/updater.py:39-55 | a local map matching a forced name is never deleted |
| Diff.MissingAndStaleDisjoint | mapupdater/updater.py:41-55 | no key is both missing and that of a map being deleted |
| Diff.NonMapChildKept | mapupdater/updater.py:42-43 | directories and names not ending in ".bsp" exactly are outside the inventory and survive the delete phase |
| Fetch.FetchMap | mapupdater/updater.py:87-131 | a download raises exactly when the request fails, the name is not a plain file name, or a file blocks the scratch directory. A broken body is discarded and its temp file removed. An install places a file at the extracted name and changes no other map. Only the archive and the extracted name change in scratch |
| Fetch.FetchAll | mapupdater/updater.py:75-78 | one result per missing name; no child of the maps directory disappears and no file stops being a file |
| Fetch.FetchAllKeepsInstalled | mapupdater/updater.py:96-99 | every download reported installed still has its map in place at the end of the batch |
| Fetch.FetchAllNewFiles | mapupdater/updater.py:96-99 | every new file in the maps directory is the extracted name of one of the batch's downloads |
| Fetch.FetchAllNewChildren | mapupdater/updater.py:88-99 | a batch adds no child to the maps directory except the scratch directory and the extracted names of its downloads |
| Fetch.FetchAllRaises | mapupdater/updater.py:87-94 | inside a batch, each download raises exactly under its own conditions, whatever its siblings did |
| Fetch.ScratchBlocked | mapupdater/updater.py:88-90 | after `makedirs`, the scratch path is a directory unless a file already held it |
| Fetch.FetchAllBrokenBodies | mapupdater/updater.py:115-127 | a download whose body broke off is never installed |
| Fetch.ExtractedNameOfArchive | mapupdater/updater.py:97 | `x + ".bz2"` extracts to `x` when `x` holds no other ".bz2" |
| Fetch.FetchInstallsUnpacked | mapupdater/updater.py:96-113 | a complete transfer that unpacks installs exactly the unpacked bytes |
| Fetch.InstallSettlesName | mapupdater/updater.py:97-99 | installing `x.bsp` + ".bz2" puts `x.bsp` in the inventory with the remote name as its key |
| Fetch.InstalledButNotInventoried | mapupdater/updater.py:96-99 | a name not ending in ".bsp" installs but never enters the inventory |
| Fetch.UpperCaseArchiveExample | mapupdater/updater.py:202-203 | "maps/a.BSP.bz2" passes the case-insensitive bucket filter, but installs "a.BSP", which the case-sensitive inventory ignores |
| Fetch.FetchKeepsValid | mapupdater/updater.py:88-94 | staged files only exist inside an existing scratch directory |
| Fetch.FetchAllKeepsValid | mapupdater/updater.py:75-78 | a batch of downloads keeps every staged file inside an existing scratch directory |
| Fetch.SettlingNameKey | mapupdater/updater.py:97-99 | a settling name extracts to a map whose key is the lower-cased remote name |
| Updater.NewWebListUpdater | mapupdater/updater.py:19-25 | for byte-string arguments, construction fails exactly when `mapsPath` or `fetchURL` is empty, checked in that order; a configuration keeps the given paths and flag, and lists from `fetchURL` |
| Updater.NewS3Updater | mapupdater/updater.py:167-173 | for byte-string arguments, the base checks come first, then `listURL`, then `keyPrefix`, each with its own error; construction succeeds exactly when all four are non-empty, and keeps the given paths, prefix and flag |
| Updater.CheckMaps | mapupdater/updater.py:37-80 | a failed listing ends the pass and changes nothing; otherwise the pass reconciles against the listing plus the forced names |
| Updater.Reconcile | mapupdater/updater.py:38-78 | the pass fetches exactly the missing names and reports exactly the stale maps as deleted when configured to. It ends with nothing to fetch, failed or up to date; the sentinel is present when up to date; nothing undeleted disappears |
| Updater.DeletedMapsGone | mapupdater/updater.py:57-78 | every map reported deleted is absent from the maps directory after the pass, unless one of the pass's downloads installed a file under that name |
| Updater.ReconcileKeepsValid | mapupdater/updater.py:57-78 | a pass keeps every staged file inside an existing scratch directory |
| Updater.ScratchDirIsNotAMap | mapupdater/updater.py:23 | the scratch directory's name does not end in ".bsp", so the delete phase never removes it |
| Updater.ReconcileKeepsFiles | mapupdater/updater.py:57-78 | a file the pass did not delete is still a file afterwards |
| Updater.SentinelIsNotAMap | mapupdater/updater.py:72 | the sentinel never enters the inventory |
| Updater.PassCoversRemote | mapupdater/updater.py:38-78 | after a pass whose downloads all installed settling names, every remote name is some local map's key |
| Updater.FetchedNameCovered | mapupdater/updater.py:76-78 | a fetched name that installed is covered by the map it installed |
| Updater.UnfetchedNameCovered | mapupdater/updater.py:46-55 | a remote name that was not fetched already had a local map, which the pass kept |
| Updater.PassLeavesNothingStale | mapupdater/updater.py:51-63 | after a deleting pass with settling names, no local map is stale |
| Updater.NothingMissingWhenCovered | mapupdater/updater.py:46-49 | when every remote name is a local key, nothing is missing |
| Updater.QuietPass | mapupdater/updater.py:57-68 | a pass with nothing missing and nothing to delete changes nothing |
| Updater.SecondPassIsNoOp | mapupdater/updater.py:38-78 | reconciliation is idempotent: a second pass over the same names deletes nothing, fetches nothing and leaves the filesystem as it was |
| Updater.SecondCheckIsNoOp | mapupdater/updater.py:37-80 | the same idempotence for two `_checkMaps` calls with the same reply and forced names |
| Updater.NoSentinelUnlessUpToDate | mapupdater/updater.py:71-78 | a pass that does not end up to date creates no sentinel, unless a download extracts to the sentinel's name |
| Updater.SentinelDespiteBrokenDownloads | mapupdater/updater.py:71-78 | when every missing body breaks off, nothing installs, yet the pass ends up to date and touches the sentinel |
| Component.ForcedNames | mapupdater/component.py:25-28 | there are no more forced names than uploads, and each ends in ".bsp.bz2" |
| Component.ForcedNamesFromUploads | mapupdater/component.py:27-28 | every forced name is an upload ending in ".bsp" with ".bz2" appended |
| Component.ForcedNamesKeepOrder | mapupdater/component.py:27-28 | the forced names follow the order of their uploads |
| Component.UploadedMapsAreForced | mapupdater/component.py:27-28 | every upload ending in ".bsp" is forced |
| Component.ForcedNameMatchesLocalKey | mapupdater/component.py:28 | the forced name of `m.bsp` lower-cases to the key of a local file `m.bsp` |
| Component.OnUploadFinished | mapupdater/component.py:25-28 | a failed listing changes nothing; every fetched name is a listed name or an uploaded ".bsp" name with ".bz2" appended |
| Component.UploadedMapSurvives | mapupdater/component.py:25-28 | an uploaded map already present locally is neither deleted nor fetched by the pass its upload triggers, and is still a file afterwards |

## Left out

- Concurrency is not modelled:
  - the `semaphore` that serialises passes;
  - the `downloadSemaphore` that allows four parallel downloads;
  - the interleaving of `gatherResults`.
  Downloads run one after another, in `missing` order.
- Network I/O is an input: the listing request, the map downloads and their
  bodies. No URL is built or parsed.
- Parsing is outside the model. BeautifulSoup's HTML parsing and
  ElementTree's XML parsing are given as results in `Reply`.
- `aunpack` is opaque. Its output file, or its absence, is part of each
  `Download`. Its exit status is ignored: `getProcessOutputAndValue`
  succeeds for any exit code, and `_extracted` runs either way.
- Console output and `log.err` are left out, except that a message raising
  on a non-ASCII name is stated under `Fetch.FetchMap` below.
- Updater.NewWebListUpdater / Updater.NewS3Updater: arguments are byte
  strings. In the source each `assert isinstance(x, str) and len(x)` also
  fails for `None`, which is the service's default for an omitted option,
  and for a unicode argument. Only the empty-string case is modelled.
- Files.Touch: touching an existing sentinel refreshes its modification
  time, which is the "up to date" signal after every clean pass but the
  first. The filesystem model has no times, so `Touch` leaves an existing
  file unchanged, and only `Pass.outcome == UpToDate` records the touch.
- Some component and packaging code is left out:
  - the `onConnect`, `onJoin` and `onLeave` session callbacks of
    mapupdater/component.py;
  - twisted/plugins/mapupdater_service.py, the service wiring and options;
  - setup.py.
  `onJoin` calls `checkMaps()` with no forced names, which is `CheckMaps`
  with an empty list.
- `None` values are left out. An anchor without an href, or a Key element
  without text, makes the source raise. Here hrefs and keys are always
  strings.
- Diff.EffectiveRemote: `list(set(...))` has hash order in Python. The model
  keeps first occurrences in place, and only membership and the absence of
  duplicates are promised.
- Strings.Lower: lower-cases ASCII only, like Python 2 `str.lower` on byte
  strings. Web hrefs are encoded to ASCII byte strings before lowering, so
  they match exactly. ElementTree returns an ASCII-only key text as a byte
  string too. A key text with non-ASCII characters arrives as unicode, and
  so do the forced names of an upload event. Python lowers the non-ASCII
  letters of such a name as well. Such a name also never equals a
  byte-string local key, so it is always missing. The model compares names
  character by character.
- Fetch.FetchMap: a download whose name is unicode with non-ASCII
  characters always fails in the source, because formatting the name into a
  console message raises `UnicodeEncodeError`. Such a name comes from an S3
  key or an upload event. After an install the raise comes in `_extracted`,
  once the map is moved and the archive removed. In `_eb` it comes before
  the cleanup, so the temp file stays. Either way the pass fails and the
  sentinel is not touched. The model has no such names: `world` decides
  their downloads like any other, so such a pass can end `UpToDate`.
- Paths are simplified: `FilePath` is reduced to a two-level tree, the maps
  directory's children and the scratch files. Symbolic links and permission
  errors are left out.
- Files.FileSystem: the maps directory always exists. In the source a
  missing maps directory makes `children()` raise, so the pass fails after
  the listing.
- Fetch.SafeName: every download name holding '/' is `Raised`. The source
  first normalises the name (`normpath`) and raises only when the result
  still holds a separator ("x/a.bsp.bz2") or leaves the scratch directory.
  A normal form of "." (from "a/..") fails later, at `open('wb')`. So
  "./a.bsp.bz2" is staged as "a.bsp.bz2" and installs the map "a.bsp".
  Listed names never hold '/' (`ListedNamesArePlain`), so only the forced
  names of an upload event are affected.
- Fetch.FetchMap: for the names "" and "." the model raises. The source also
  raises, unless a regular file sits at `<maps>/mapupdater`. Then `child`
  returns that file and `open('wb')` truncates it. `_extracted` renames it
  onto itself and `tp.remove()` deletes it, with nothing raised. The model
  instead keeps that file and reports `Raised`.
- Fetch.FetchAll: `world` maps a name to one outcome, so a name listed twice
  gets the same outcome both times. The source fetches it twice, with
  independent outcomes.
- Fetch.FetchMap: a scratch entry that is a directory is not represented.
  Staged names are always files.

=== FILE: component.dfy ===
/**
  `MapUpdaterComponent.onUploadFinished`: an "upload finished" event names
  the uploaded maps; the ones ending in ".bsp" become forced names for a
  reconciliation pass.
 */
module Component {
  import opened Strings
  import opened Seqs
  import opened Files
  import opened Listing
  import opened Diff
  import opened Fetch
  import opened Updater

  predicate IsMapName(f: String) {
    EndsWith(f, MapSuffix)
  }

  /** The upload a forced name came from: the name without its trailing ".bz2". */
  function Uploaded(forcedName: String): String {
    if EndsWith(forcedName, ArchiveSuffix) then forcedName[..|forcedName| - |ArchiveSuffix|] else forcedName
  }

  /** `Uploaded` of each forced name, in order. */
  function UploadsOf(forced: seq<String>): (r: seq<String>)
    ensures |r| == |forced|
    decreases |forced|
  {
    if |forced| == 0 then []
    else UploadsOf(forced[..|forced| - 1]) + [Uploaded(forced[|forced| - 1])]
  }

  /** `[f + '.bz2' for f in mapFilenames if f.endswith('.bsp')]`. */
  function ForcedNames(uploads: seq<String>): (r: seq<String>)
    ensures |r| <= |uploads|
    ensures forall i :: 0 <= i < |r| ==> EndsWith(r[i], MapSuffix + ArchiveSuffix)
    decreases |uploads|
  {
    if |uploads| == 0 then []
    else
      var f := uploads[|uploads| - 1];
      var init := ForcedNames(uploads[..|uploads| - 1]);
      if IsMapName(f) then
        assert (f + ArchiveSuffix)[|f| + 4 - 8..] == f[|f| - 4..] + ArchiveSuffix;
        init + [f + ArchiveSuffix]
      else init
  }

  /** Every forced name is an upload with ".bz2" appended. */
  lemma {:induction false} ForcedNamesFromUploads(uploads: seq<String>)
    ensures forall g :: g in ForcedNames(uploads) ==>
              g == Uploaded(g) + ArchiveSuffix && Uploaded(g) in uploads && IsMapName(Uploaded(g))
    decreases |uploads|
  {
    if |uploads| > 0 {
      var f := uploads[|uploads| - 1];
      var rest := uploads[..|uploads| - 1];
      ForcedNamesFromUploads(rest);
      assert forall x :: x in rest ==> x in uploads;
      if IsMapName(f) {
        assert ForcedNames(uploads) == ForcedNames(rest) + [f + ArchiveSuffix];
        assert Uploaded(f + ArchiveSuffix) == f;
      }
    }
  }

  /** The forced names follow the order of the uploads they come from. */
  lemma {:induction false} ForcedNamesKeepOrder(uploads: seq<String>)
    ensures Subseq(UploadsOf(ForcedNames(uploads)), uploads)
    decreases |uploads|
  {
    if |uploads| > 0 {
      var f := uploads[|uploads| - 1];
      var rest := uploads[..|uploads| - 1];
      ForcedNamesKeepOrder(rest);
      var r0 := ForcedNames(rest);
      if IsMapName(f) {
        var r := r0 + [f + ArchiveSuffix];
        assert r[..|r| - 1] == r0;
        assert Uploaded(f + ArchiveSuffix) == f;
        var u := UploadsOf(r);
        assert u == UploadsOf(r0) + [f];
        assert u[..|u| - 1] == UploadsOf(r0);
      }
    }
  }

  /** Every upload ending in ".bsp" is forced, with ".bz2" appended. */
  lemma {:induction false} UploadedMapsAreForced(uploads: seq<String>)
    ensures forall f :: f in uploads && IsMapName(f) ==> f + ArchiveSuffix in ForcedNames(uploads)
    decreases |uploads|
  {
    if |uploads| > 0 {
      UploadedMapsAreForced(uploads[..|uploads| - 1]);
      assert uploads == uploads[..|uploads| - 1] + [uploads[|uploads| - 1]];
    }
  }

  /**
    The pass an "upload finished" event triggers. A failed listing changes
    nothing; otherwise every fetched name is a listed name or an uploaded
    ".bsp" name with ".bz2" appended.
   */
  function OnUploadFinished(cfg: Config, fs: FileSystem, reply: Reply, uploads: seq<String>, world: String -> Download)
    : (r: Pass)
    ensures GetMapList(cfg.provider, reply).Err? ==>
              r.fs == fs && r.deleted == {} && r.fetched == [] && r.outcome.ListingFailed?
    ensures forall f :: f in r.fetched ==>
              (GetMapList(cfg.provider, reply).Ok? && f in GetMapList(cfg.provider, reply).value)
              || (f == Uploaded(f) + ArchiveSuffix && Uploaded(f) in uploads && IsMapName(Uploaded(f)))
  {
    ForcedNamesFromUploads(uploads);
    CheckMaps(cfg, fs, reply, ForcedNames(uploads), world)
  }

  /** The forced name of an upload `m.bsp` lower-cases to the key a local file `m.bsp` has. */
  lemma ForcedNameMatchesLocalKey(m: String)
    requires IsMapName(m)
    ensures LocalKey(m) == Lower(m + ArchiveSuffix)
  {
    LowerConcat(m, ArchiveSuffix);
    assert Lower(ArchiveSuffix) == ArchiveSuffix;
  }

  /**
    A freshly uploaded map already present locally survives the pass its
    upload triggers: it is not deleted, not fetched, and still a file.
   */
  lemma UploadedMapSurvives(cfg: Config, fs: FileSystem, reply: Reply, uploads: seq<String>,
                            world: String -> Download, m: String)
    requires m in uploads && IsMapName(m) && IsFile(fs, m)
    ensures var r := OnUploadFinished(cfg, fs, reply, uploads, world);
            m !in r.deleted && m + ArchiveSuffix !in r.fetched && IsFile(r.fs, m)
  {
    var forced := ForcedNames(uploads);
    var f := m + ArchiveSuffix;
    UploadedMapsAreForced(uploads);
    ForcedNameMatchesLocalKey(m);
    if GetMapList(cfg.provider, reply).Ok? {
      var eff := EffectiveListing(cfg, reply, forced);
      assert m in LocalMaps(fs);
      ForcedNameProtectsLocalMap(GetMapList(cfg.provider, reply).value, forced, LocalMaps(fs), m, f);
      ReconcileKeepsFiles(fs, eff, cfg.deleteIfNotPresent, world);
    }
  }
}

=== FILE: diff.dfy ===
/**
  The reconciliation diff of `MapUpdater._checkMaps`: the local inventory,
  the effective remote listing (with forced names), the `missing` and
  `delete` lists, and the optional delete phase.
 */
module Diff {
  import opened Strings
  import opened Seqs
  import opened Files

  /** Installed maps are decompressed: they end in this, case-sensitively. */
  const MapSuffix: String := ".bsp"

  /** Remote names are the compressed form: a local map's key adds this. */
  const ArchiveSuffix: String := ".bz2"

  /** `ourMaps`: the non-directory children of the maps directory whose name ends in ".bsp". */
  function LocalMaps(fs: FileSystem): set<String> {
    set n | n in fs.maps && fs.maps[n].File? && EndsWith(n, MapSuffix)
  }

  /** `p.basename().lower() + '.bz2'`: how a local map is compared with remote names. */
  function LocalKey(name: String): String {
    Lower(name) + ArchiveSuffix
  }

  /** `ourMapFilenames`. */
  function LocalKeys(local: set<String>): set<String> {
    set n | n in local :: LocalKey(n)
  }

  /** `remoteMapsLower`. */
  function LowerAll(names: seq<String>): set<String> {
    set f | f in names :: Lower(f)
  }

  /**
    The remote names the diff works on: the listing as returned, or, when
    forced names are given (a non-empty list is truthy),
    `list(set(remoteMaps + forceDownloadMaps))`.
   */
  function EffectiveRemote(remote: seq<String>, forced: seq<String>): (r: seq<String>)
    ensures |forced| == 0 ==> r == remote
    ensures forall f :: f in r <==> f in remote || f in forced
    ensures |forced| > 0 ==> NoDuplicates(r)
  {
    if |forced| == 0 then remote else Dedup(remote + forced)
  }

  /**
    `missing`: the remote names, in listing order and with their original
    case, that no local map's key equals once lower-cased.
   */
  function Missing(eff: seq<String>, local: set<String>): (r: seq<String>)
    ensures forall f :: f in r <==> f in eff && forall n :: n in local ==> LocalKey(n) != Lower(f)
    ensures (forall f :: f in eff ==> Lower(f) in LocalKeys(local)) ==> r == []
  {
    Filter(f => Lower(f) !in LocalKeys(local), eff)
  }

  /** `delete`: the local maps whose key equals no lower-cased remote name. */
  function Stale(local: set<String>, eff: seq<String>): (r: set<String>)
    ensures r <= local
    ensures forall n :: n in r <==> n in local && forall f :: f in eff ==> Lower(f) != LocalKey(n)
  {
    set n | n in local && LocalKey(n) !in LowerAll(eff)
  }

  /**
    The delete phase: with `deleteIfNotPresent` every stale map is removed
    (one already gone is skipped); without it the directory is left alone.
   */
  function DeletePhase(fs: FileSystem, stale: set<String>, deleteIfNotPresent: bool): (r: FileSystem)
    ensures r.scratch == fs.scratch
    ensures !deleteIfNotPresent ==> r == fs
    ensures forall n :: n in r.maps <==> n in fs.maps && !(deleteIfNotPresent && n in stale)
    ensures forall n :: n in r.maps ==> r.maps[n] == fs.maps[n]
  {
    if deleteIfNotPresent then fs.(maps := fs.maps - stale) else fs
  }

  /** The loop of `_checkMaps` that builds `missing`, in listing order. */
  method ComputeMissing(fs: FileSystem, eff: seq<String>) returns (missing: seq<String>)
    ensures missing == Missing(eff, LocalMaps(fs))
  {
    var ourMaps := LocalMaps(fs);
    var ourMapFilenames := LocalKeys(ourMaps);
    missing := [];
    var i := 0;
    while i < |eff|
      invariant 0 <= i <= |eff|
      invariant missing == Missing(eff[..i], ourMaps)
    {
      MissingStep(eff[..i], eff[i], ourMaps);
      assert eff[..i + 1] == eff[..i] + [eff[i]];
      if Lower(eff[i]) !in ourMapFilenames {
        missing := missing + [eff[i]];
      }
      i := i + 1;
    }
    assert eff[..|eff|] == eff;
  }

  /** One more remote name extends `missing` by that name exactly when its key is not local. */
  lemma MissingStep(s: seq<String>, f: String, local: set<String>)
    ensures Missing(s + [f], local)
            == Missing(s, local) + (if Lower(f) !in LocalKeys(local) then [f] else [])
  {
    assert (s + [f])[..|s|] == s;
  }

  /** The loop of `_checkMaps` that builds `delete`. */
  method ComputeDelete(fs: FileSystem, eff: seq<String>) returns (delete: set<String>)
    ensures delete == Stale(LocalMaps(fs), eff)
  {
    var ourMaps := LocalMaps(fs);
    var remoteMapsLower := LowerAll(eff);
    delete := {};
    var todo := ourMaps;
    while todo != {}
      invariant todo <= ourMaps
      invariant delete == set n | n in ourMaps - todo && LocalKey(n) !in remoteMapsLower
      decreases |todo|
    {
      var p :| p in todo;
      if LocalKey(p) !in remoteMapsLower {
        delete := delete + {p};
      }
      todo := todo - {p};
    }
  }

  /** The removal loop: `fp.remove()` for each stale map, an `OSError` for a vanished one ignored. */
  method RemoveStale(fs: FileSystem, delete: set<String>, deleteIfNotPresent: bool) returns (r: FileSystem)
    ensures r == DeletePhase(fs, delete, deleteIfNotPresent)
  {
    r := fs;
    if deleteIfNotPresent && delete != {} {
      var todo := delete;
      while todo != {}
        invariant todo <= delete
        invariant r == fs.(maps := fs.maps - (delete - todo))
        decreases |todo|
      {
        var fp :| fp in todo;
        r := RemoveChild(r, fp);
        todo := todo - {fp};
      }
    }
  }

  /** `missing` keeps the listing order of the names it contains. */
  lemma MissingInListingOrder(eff: seq<String>, local: set<String>)
    ensures Subseq(Missing(eff, local), eff)
  {
    FilterIsSubseq(f => Lower(f) !in LocalKeys(local), eff);
  }

  /** A forced name is treated as remote: it is missing unless some local map already has its key. */
  lemma ForcedNameIsRemote(remote: seq<String>, forced: seq<String>, local: set<String>, f: String)
    requires f in forced
    requires forall n :: n in local ==> LocalKey(n) != Lower(f)
    ensures f in Missing(EffectiveRemote(remote, forced), local)
  {
  }

  /** A local map whose key matches a forced name is never in the delete list. */
  lemma ForcedNameProtectsLocalMap(remote: seq<String>, forced: seq<String>, local: set<String>, n: String, f: String)
    requires f in forced && n in local && LocalKey(n) == Lower(f)
    ensures n !in Stale(local, EffectiveRemote(remote, forced))
  {
  }

  /** No key is both missing and the key of a map scheduled for deletion. */
  lemma MissingAndStaleDisjoint(eff: seq<String>, local: set<String>)
    ensures forall f, n :: f in Missing(eff, local) && n in Stale(local, eff) ==> Lower(f) != LocalKey(n)
  {
  }

  /**
    A child that is a directory, or whose name does not end in ".bsp" exactly
    ("X.BSP", "x.bsp.bz2"), is outside the inventory: the delete phase keeps it.
   */
  lemma NonMapChildKept(fs: FileSystem, eff: seq<String>, deleteIfNotPresent: bool, n: String)
    requires n in fs.maps && (fs.maps[n].Directory? || !EndsWith(n, MapSuffix))
    ensures n !in LocalMaps(fs)
    ensures var r := DeletePhase(fs, Stale(LocalMaps(fs), eff), deleteIfNotPresent);
            n in r.maps && r.maps[n] == fs.maps[n]
  {
  }
}

=== FILE: fetch.dfy ===
/**
  One download (`MapUpdater._fetchMap`) as a transition of the filesystem,
  and a batch of downloads run one after another. The network transfer and
  the `aunpack` extraction are inputs: a `Download` says how each went.
 */
module Fetch {
  import opened Wrappers
  import opened Strings
  import opened Files
  import opened Diff
  import Listing

  /** How `treq.get` and `treq.collect` went for one file. */
  datatype Transfer =
    | RequestFailed              // `treq.get` failed: no response at all
    | BodyFailed                 // the body stream broke off
    | BodyReceived(body: Bytes)  // the whole body arrived (the status code is never looked at)

  /**
    One file's external outcomes: the transfer, and the file `aunpack` left
    at the expected extracted name (`None` when it produced nothing; its
    exit status is ignored: `_extracted` runs for any exit code).
   */
  datatype Download = Download(transfer: Transfer, unpacked: Option<Bytes>)

  datatype FetchResult =
    | Installed  // the extracted map was moved into the maps directory
    | Discarded  // an error reached the `_eb` errback, which cleaned up and swallowed it
    | Raised     // an error escaped `_fetchMap` before `_eb` was attached

  datatype Step = Step(fs: FileSystem, result: FetchResult)

  /**
    A name that can be staged as a file in the scratch directory. Without a
    separator, `FilePath.child` refuses ".." and yields the directory itself
    for "" and ".", which `open('wb')` then refuses. Every name holding '/'
    is refused here, although `child` first normalises it (`normpath`).
   */
  predicate SafeName(n: String) {
    '/' !in n && n != "" && n != "." && n != ".."
  }

  /** `tp.basename().replace('.bz2', '')`: every ".bz2" goes, wherever it is. */
  function ExtractedName(fn: String): String {
    ReplaceAll(fn, ArchiveSuffix, "")
  }

  /** The extracted file can be renamed to `<maps>/<name>`: it exists and the target is not a directory. */
  predicate CanMove(fs: FileSystem, name: String) {
    SafeName(name) && name in fs.scratch && !IsDirectory(fs, name)
  }

  /** `_fetchMap(fn)`. */
  function FetchMap(fs: FileSystem, fn: String, d: Download): (r: Step)
    ensures r.result == Raised <==>
              d.transfer.RequestFailed? || !SafeName(fn) || !IsDirectory(EnsureScratchDir(fs), ScratchDirName)
    ensures r.result == Raised ==> r.fs == EnsureScratchDir(fs)
    ensures d.transfer.BodyFailed? && r.result != Raised ==> r.result == Discarded
    ensures IsFile(r.fs, ScratchDirName) <==> IsFile(fs, ScratchDirName)
    ensures r.result != Raised ==> fn !in r.fs.scratch
    ensures r.result == Installed ==> ExtractedName(fn) !in r.fs.scratch
    ensures r.result == Discarded ==> r.fs.maps == EnsureScratchDir(fs).maps
    ensures r.result == Installed ==>
              d.transfer.BodyReceived? && SafeName(ExtractedName(fn)) && IsFile(r.fs, ExtractedName(fn))
    ensures r.result == Installed ==>
              forall n :: n != ExtractedName(fn) ==>
                (n in r.fs.maps <==> n in EnsureScratchDir(fs).maps)
                && (n in r.fs.maps ==> r.fs.maps[n] == EnsureScratchDir(fs).maps[n])
    ensures forall n :: n != fn && n != ExtractedName(fn) ==>
              (n in r.fs.scratch <==> n in fs.scratch)
              && (n in r.fs.scratch ==> r.fs.scratch[n] == fs.scratch[n])
  {
    var fs1 := EnsureScratchDir(fs);
    var extracted := ExtractedName(fn);
    if d.transfer.RequestFailed? || !SafeName(fn) || !IsDirectory(fs1, ScratchDirName) then
      Step(fs1, Raised)
    else if d.transfer.BodyFailed? then
      // `_eb`: close the stream, remove the partial temp file
      Step(fs1.(scratch := fs1.scratch - {fn}), Discarded)
    else
      var fs2 := fs1.(scratch := fs1.scratch[fn := d.transfer.body]);
      var fs3 := if d.unpacked.Some? then fs2.(scratch := fs2.scratch[extracted := d.unpacked.value]) else fs2;
      if CanMove(fs3, extracted) then
        // `_extracted`: move into place, then remove the archive (already gone when the names coincide)
        var moved := FileSystem(fs3.maps[extracted := File(fs3.scratch[extracted])], fs3.scratch - {extracted});
        Step(moved.(scratch := moved.scratch - {fn}), Installed)
      else
        // the failed move reaches `_eb`, which removes the archive
        Step(fs3.(scratch := fs3.scratch - {fn}), Discarded)
  }

  datatype Batch = Batch(fs: FileSystem, results: seq<FetchResult>)

  /** The downloads of one pass, performed in order; each sees the filesystem the previous one left. */
  function FetchAll(fs: FileSystem, names: seq<String>, world: String -> Download): (r: Batch)
    ensures |r.results| == |names|
    ensures forall n :: n in fs.maps ==> n in r.fs.maps
    ensures forall n :: IsFile(fs, n) ==> IsFile(r.fs, n)
    ensures IsFile(r.fs, ScratchDirName) <==> IsFile(fs, ScratchDirName)
    decreases |names|
  {
    if |names| == 0 then Batch(fs, [])
    else
      var fn := names[|names| - 1];
      var b := FetchAll(fs, names[..|names| - 1], world);
      var s := FetchMap(b.fs, fn, world(fn));
      Batch(s.fs, b.results + [s.result])
  }

  /** Every download reported installed left its map in place, whatever came after it. */
  lemma {:induction false} FetchAllKeepsInstalled(fs: FileSystem, names: seq<String>, world: String -> Download)
    ensures var r := FetchAll(fs, names, world);
            forall k :: 0 <= k < |names| && r.results[k] == Installed ==> IsFile(r.fs, ExtractedName(names[k]))
    decreases |names|
  {
    if |names| > 0 {
      var init := names[..|names| - 1];
      FetchAllKeepsInstalled(fs, init, world);
      var b := FetchAll(fs, init, world);
      var fn := names[|names| - 1];
      var s := FetchMap(b.fs, fn, world(fn));
      var r := FetchAll(fs, names, world);
      assert r.results == b.results + [s.result] && r.fs == s.fs;
      forall k | 0 <= k < |names| && r.results[k] == Installed
        ensures IsFile(r.fs, ExtractedName(names[k]))
      {
        if k < |init| {
          assert names[k] == init[k] && r.results[k] == b.results[k];
          assert IsFile(b.fs, ExtractedName(init[k]));
        }
      }
    }
  }

  /** A file that appears in the maps directory during a batch is the extracted name of one of its downloads. */
  lemma {:induction false} FetchAllNewFiles(fs: FileSystem, names: seq<String>, world: String -> Download)
    ensures var r := FetchAll(fs, names, world);
            forall n :: IsFile(r.fs, n) && !IsFile(fs, n) ==> exists k :: 0 <= k < |names| && n == ExtractedName(names[k])
    decreases |names|
  {
    if |names| > 0 {
      var init := names[..|names| - 1];
      FetchAllNewFiles(fs, init, world);
      assert forall k :: 0 <= k < |init| ==> names[k] == init[k];
      var fn := names[|names| - 1];
      assert ExtractedName(fn) == ExtractedName(names[|names| - 1]);
    }
  }

  /** A batch adds no child to the maps directory except the scratch directory and extracted names of its downloads. */
  lemma {:induction false} FetchAllNewChildren(fs: FileSystem, names: seq<String>, world: String -> Download)
    ensures var r := FetchAll(fs, names, world);
            forall n :: n in r.fs.maps && n !in fs.maps && n != ScratchDirName ==>
              exists k :: 0 <= k < |names| && n == ExtractedName(names[k])
    decreases |names|
  {
    if |names| > 0 {
      var init := names[..|names| - 1];
      FetchAllNewChildren(fs, init, world);
      var b := FetchAll(fs, init, world);
      var fn := names[|names| - 1];
      var s := FetchMap(b.fs, fn, world(fn));
      assert FetchAll(fs, names, world).fs == s.fs;
      forall n | n in s.fs.maps && n !in fs.maps && n != ScratchDirName
        ensures exists k :: 0 <= k < |names| && n == ExtractedName(names[k])
      {
        if n in b.fs.maps {
          var k :| 0 <= k < |init| && n == ExtractedName(init[k]);
          assert names[k] == init[k];
        } else {
          assert n == ExtractedName(names[|names| - 1]);
        }
      }
    }
  }

  /**
    A download raises exactly when its request fails, its name is not a
    plain file name, or a file blocks the scratch directory; what its
    siblings did does not matter.
   */
  lemma {:induction false} FetchAllRaises(fs: FileSystem, names: seq<String>, world: String -> Download)
    ensures var r := FetchAll(fs, names, world);
            forall k :: 0 <= k < |names| ==>
              (r.results[k] == Raised <==>
                 world(names[k]).transfer.RequestFailed? || !SafeName(names[k]) || IsFile(fs, ScratchDirName))
    decreases |names|
  {
    if |names| > 0 {
      var init := names[..|names| - 1];
      FetchAllRaises(fs, init, world);
      var b := FetchAll(fs, init, world);
      var fn := names[|names| - 1];
      var s := FetchMap(b.fs, fn, world(fn));
      var results := FetchAll(fs, names, world).results;
      assert results == b.results + [s.result];
      forall k | 0 <= k < |names|
        ensures results[k] == Raised <==>
                  world(names[k]).transfer.RequestFailed? || !SafeName(names[k]) || IsFile(fs, ScratchDirName)
      {
        if k < |init| {
          assert names[k] == init[k] && results[k] == b.results[k];
        } else {
          ScratchBlocked(b.fs);
        }
      }
    }
  }

  /** After `EnsureScratchDir`, the scratch path is a directory unless a file already held it. */
  lemma ScratchBlocked(fs: FileSystem)
    ensures !IsDirectory(EnsureScratchDir(fs), ScratchDirName) <==> IsFile(fs, ScratchDirName)
  {
  }

  /** A download whose body broke off is never installed. */
  lemma {:induction false} FetchAllBrokenBodies(fs: FileSystem, names: seq<String>, world: String -> Download)
    ensures var r := FetchAll(fs, names, world);
            forall k :: 0 <= k < |names| && world(names[k]).transfer.BodyFailed? ==> r.results[k] != Installed
    decreases |names|
  {
    if |names| > 0 {
      var init := names[..|names| - 1];
      FetchAllBrokenBodies(fs, init, world);
      var b := FetchAll(fs, init, world);
      var fn := names[|names| - 1];
      var s := FetchMap(b.fs, fn, world(fn));
      assert FetchAll(fs, names, world).results == b.results + [s.result];
      assert forall k :: 0 <= k < |init| ==> names[k] == init[k];
    }
  }

  /** `name + ".bz2"` extracts to `name` when `name` holds no other ".bz2". */
  lemma ExtractedNameOfArchive(x: String)
    requires !Occurs(ArchiveSuffix, x)
    ensures ExtractedName(x + ArchiveSuffix) == x
  {
    ReplaceTrailingPattern(x, ArchiveSuffix, "");
  }

  /**
    A complete transfer whose archive `aunpack` unpacks, for names the path
    library accepts and a target that is not a directory, installs exactly
    the unpacked bytes.
   */
  lemma FetchInstallsUnpacked(fs: FileSystem, fn: String, body: Bytes, data: Bytes)
    requires SafeName(fn) && SafeName(ExtractedName(fn))
    requires IsDirectory(EnsureScratchDir(fs), ScratchDirName)
    requires !IsDirectory(EnsureScratchDir(fs), ExtractedName(fn))
    ensures var r := FetchMap(fs, fn, Download(BodyReceived(body), Some(data)));
            r.result == Installed && r.fs.maps[ExtractedName(fn)] == File(data)
  {
  }

  /**
    After installing `x + ".bz2"`, where `x` ends in ".bsp" and holds no
    other ".bz2", the new file `x` is in the inventory and its key is the
    lower-cased remote name: a second diff no longer lists the name.
   */
  lemma InstallSettlesName(fs: FileSystem, x: String, d: Download)
    requires EndsWith(x, MapSuffix) && !Occurs(ArchiveSuffix, x)
    requires FetchMap(fs, x + ArchiveSuffix, d).result == Installed
    ensures ExtractedName(x + ArchiveSuffix) == x
    ensures x in LocalMaps(FetchMap(fs, x + ArchiveSuffix, d).fs)
    ensures LocalKey(x) == Lower(x + ArchiveSuffix)
  {
    ExtractedNameOfArchive(x);
    LowerConcat(x, ArchiveSuffix);
    assert Lower(ArchiveSuffix) == ArchiveSuffix;
  }

  /**
    When `x` does not end in ".bsp" exactly, installing `x + ".bz2"`
    succeeds but leaves a file the inventory ignores, so the name stays
    missing and is fetched again on every pass.
   */
  lemma InstalledButNotInventoried(fs: FileSystem, x: String, d: Download)
    requires !EndsWith(x, MapSuffix) && !Occurs(ArchiveSuffix, x)
    requires FetchMap(fs, x + ArchiveSuffix, d).result == Installed
    ensures IsFile(FetchMap(fs, x + ArchiveSuffix, d).fs, x)
    ensures x !in LocalMaps(FetchMap(fs, x + ArchiveSuffix, d).fs)
  {
    ExtractedNameOfArchive(x);
  }

  /**
    "maps/a.BSP.bz2" passes the case-insensitive bucket filter, but its
    download installs "a.BSP", which the case-sensitive ".bsp" inventory
    never sees.
   */
  lemma UpperCaseArchiveExample()
    ensures Listing.BucketKeeps("maps/", "maps/a.BSP.bz2")
    ensures Listing.StripPrefix("maps/", "maps/a.BSP.bz2") == "a.BSP.bz2"
    ensures ExtractedName("a.BSP.bz2") == "a.BSP"
    ensures !EndsWith("a.BSP", MapSuffix)
  {
    var x: String := "a.BSP.bz2";
    assert EndsWith(Lower(x), Listing.BucketSuffix) by {
      assert Lower(x) == "a.bsp.bz2";
    }
    assert "maps/a.BSP.bz2" == "maps/" + x;
    Listing.FlatKeyListed("maps/", x);
    AbsentCharNoOccurrence('2', ArchiveSuffix, "a.BSP");
    assert "a.BSP" + ArchiveSuffix == x;
    ExtractedNameOfArchive("a.BSP");
  }

  /** A download never leaves staged files without the scratch directory. */
  lemma FetchKeepsValid(fs: FileSystem, fn: String, d: Download)
    requires Valid(fs)
    ensures Valid(FetchMap(fs, fn, d).fs)
  {
  }

  /** A batch of downloads keeps every staged file inside an existing scratch directory. */
  lemma {:induction false} FetchAllKeepsValid(fs: FileSystem, names: seq<String>, world: String -> Download)
    requires Valid(fs)
    ensures Valid(FetchAll(fs, names, world).fs)
    decreases |names|
  {
    if |names| > 0 {
      var init := names[..|names| - 1];
      FetchAllKeepsValid(fs, init, world);
      var fn := names[|names| - 1];
      FetchKeepsValid(FetchAll(fs, init, world).fs, fn, world(fn));
    }
  }

  /**
    A remote name that settles after one download: `x + ".bz2"` where `x`
    ends in ".bsp" and holds no other ".bz2".
   */
  ghost predicate SettlingName(f: String) {
    EndsWith(f, ArchiveSuffix)
    && EndsWith(f[..|f| - |ArchiveSuffix|], MapSuffix)
    && !Occurs(ArchiveSuffix, f[..|f| - |ArchiveSuffix|])
  }

  /** A settling name extracts to a map file whose inventory key is the lower-cased name. */
  lemma SettlingNameKey(f: String)
    requires SettlingName(f)
    ensures EndsWith(ExtractedName(f), MapSuffix)
    ensures LocalKey(ExtractedName(f)) == Lower(f)
  {
    var x := f[..|f| - |ArchiveSuffix|];
    assert f == x + ArchiveSuffix;
    ExtractedNameOfArchive(x);
    LowerConcat(x, ArchiveSuffix);
    assert Lower(ArchiveSuffix) == ArchiveSuffix;
  }
}

=== FILE: files.dfy ===
/**
  The part of the filesystem the updater touches: the immediate children of
  the maps directory, and the files inside its `mapupdater` scratch
  subdirectory where downloads are staged.
 */
module Files {
  import opened Strings

  newtype byte = x: int | 0 <= x < 256

  type Bytes = seq<byte>

  datatype Node = File(data: Bytes) | Directory

  /** `maps`: name -> child of the maps directory; `scratch`: name -> file under `<maps>/mapupdater`. */
  datatype FileSystem = FileSystem(maps: map<String, Node>, scratch: map<String, Bytes>)

  /** The download staging subdirectory, `mapsPath.child('mapupdater')`. */
  const ScratchDirName: String := "mapupdater"

  /** The marker touched after a pass that fetched maps without a propagated error. */
  const SentinelName: String := "tempus_map_updater_run_once"

  predicate IsFile(fs: FileSystem, name: String) {
    name in fs.maps && fs.maps[name].File?
  }

  predicate IsDirectory(fs: FileSystem, name: String) {
    name in fs.maps && fs.maps[name].Directory?
  }

  /** Staged files only exist inside an existing scratch directory. */
  predicate Valid(fs: FileSystem) {
    |fs.scratch| > 0 ==> IsDirectory(fs, ScratchDirName)
  }

  /** `if not downloadTempPath.exists(): downloadTempPath.makedirs()`. */
  function EnsureScratchDir(fs: FileSystem): (r: FileSystem)
    ensures ScratchDirName in r.maps
    ensures ScratchDirName !in fs.maps ==> r.maps[ScratchDirName] == Directory
    ensures forall n :: n != ScratchDirName ==> (n in r.maps <==> n in fs.maps)
    ensures forall n :: n in fs.maps ==> n in r.maps && r.maps[n] == fs.maps[n]
    ensures r.scratch == fs.scratch
  {
    if ScratchDirName in fs.maps then fs
    else fs.(maps := fs.maps[ScratchDirName := Directory])
  }

  /** `FilePath.touch()`: creates an empty file when absent, otherwise only the mtime changes. */
  function Touch(fs: FileSystem, name: String): (r: FileSystem)
    ensures name in r.maps
    ensures name !in fs.maps ==> r.maps[name] == File([])
    ensures forall n :: n in fs.maps ==> n in r.maps && r.maps[n] == fs.maps[n]
    ensures forall n :: n != name ==> (n in r.maps <==> n in fs.maps)
    ensures r.scratch == fs.scratch
  {
    if name in fs.maps then fs else fs.(maps := fs.maps[name := File([])])
  }

  /** `fp.remove()` inside `try: ... except OSError: pass`: a missing child is not an error. */
  function RemoveChild(fs: FileSystem, name: String): (r: FileSystem)
    ensures name !in r.maps
    ensures forall n :: n != name ==> (n in r.maps <==> n in fs.maps)
    ensures forall n :: n in r.maps ==> r.maps[n] == fs.maps[n]
    ensures name !in fs.maps ==> r == fs
    ensures r.scratch == fs.scratch
  {
    fs.(maps := fs.maps - {name})
  }
}

=== FILE: listing.dfy ===
/**
  The two listing providers: an HTML directory index (`WebListUpdater`) and
  an S3 ListBucket document (`S3Updater`). The HTTP exchange and the HTML/XML
  parsers are outside the model; a `Reply` carries what they produce.
 */
module Listing {
  import opened Wrappers
  import opened Strings
  import opened Seqs

  /** Element tags of an S3 listing carry this namespace. */
  const S3Namespace: String := "{http://s3.amazonaws.com/doc/2006-03-01/}"

  const ListBucketResultTag: String := S3Namespace + "ListBucketResult"

  /** The web index keeps hrefs ending in this (note: no leading dot). */
  const WebSuffix: String := "bsp.bz2"

  /** The bucket listing keeps keys whose lower-cased form ends in this. */
  const BucketSuffix: String := ".bsp.bz2"

  datatype ListError =
    | RequestFailed         // the GET for the listing produced no response
    | HttpError(code: int)  // `response.code >= 400`
    | MalformedXml          // ElementTree could not parse the body
    | WrongRoot             // "Response returned wrong XML"
    | NoMapsFound           // "No maps found at remote server."
    | NonAsciiHref          // `href.encode()` with the ASCII codec failed

  /** Which `getMapList` override is in use; `keyPrefix` is the S3 key prefix. */
  datatype Provider = WebList | S3(keyPrefix: String)

  /**
    What ElementTree yields for an S3 listing: the root element's tag, and for
    each `Contents` child (in document order) the texts of its `Key` children.
   */
  datatype BucketDocument = BucketDocument(rootTag: String, contents: seq<seq<String>>)

  /**
    The listing response: its status code, the `href` of every anchor as
    BeautifulSoup finds them, and the tree ElementTree builds (`None` when
    the body is not well-formed XML). Each provider reads only its own view.
   */
  datatype Reply =
    | NoReply
    | Reply(code: int, anchors: seq<String>, tree: Option<BucketDocument>)

  /** Web index: an href is a map archive when it ends in "bsp.bz2" and has no '/'. */
  predicate WebKeeps(href: String) {
    EndsWith(href, WebSuffix) && '/' !in href
  }

  /** `WebListUpdater.parseMapList` on the anchors' hrefs. */
  function ParseWebList(hrefs: seq<String>): (r: Result<seq<String>, ListError>)
    ensures r.Ok? <==> forall h :: h in hrefs && WebKeeps(h) ==> IsAscii(h)
    ensures r.Err? ==> r.error == NonAsciiHref
    ensures r.Ok? ==> Subseq(r.value, hrefs)
    ensures r.Ok? ==> forall h :: multiset(r.value)[h] == if WebKeeps(h) then multiset(hrefs)[h] else 0
  {
    var kept := Filter(WebKeeps, hrefs);
    FilterIsSubseq(WebKeeps, hrefs);
    FilterCounts(WebKeeps, hrefs);
    if forall h :: h in kept ==> IsAscii(h) then Ok(kept) else Err(NonAsciiHref)
  }

  /** All `Key` texts, `Contents` element by `Contents` element. */
  function Keys(contents: seq<seq<String>>): (r: seq<String>)
    ensures forall k :: k in r <==> exists c :: c in contents && k in c
    decreases |contents|
  {
    if |contents| == 0 then []
    else
      var init := contents[..|contents| - 1];
      assert contents == init + [contents[|contents| - 1]];
      Keys(init) + contents[|contents| - 1]
  }

  /** `text.startswith(keyPrefix) and text.lower().endswith('.bsp.bz2')`. */
  predicate KeyMatches(prefix: String, key: String) {
    StartsWith(key, prefix) && EndsWith(Lower(key), BucketSuffix)
  }

  /** `text.replace(keyPrefix, '')`: every occurrence of the prefix goes, not just the leading one. */
  function StripPrefix(prefix: String, key: String): String {
    ReplaceAll(key, prefix, "")
  }

  /** A matching key whose stripped name has no '/' (`len(filename.split('/')) > 1` skips it). */
  predicate BucketKeeps(prefix: String, key: String) {
    KeyMatches(prefix, key) && '/' !in StripPrefix(prefix, key)
  }

  /**
    The loop over the keys: each kept key appends its stripped name, in key
    order and once per key (two keys stripping to the same name list it twice).
   */
  function BucketNames(prefix: String, keys: seq<String>): (r: seq<String>)
    ensures |r| <= |keys|
    ensures |r| > 0 ==> exists k :: k in keys && BucketKeeps(prefix, k)
    ensures forall k :: k in keys && BucketKeeps(prefix, k) ==> StripPrefix(prefix, k) in r
    ensures forall i :: 0 <= i < |r| ==>
              '/' !in r[i] && exists k :: k in keys && KeyMatches(prefix, k) && r[i] == StripPrefix(prefix, k)
    decreases |keys|
  {
    if |keys| == 0 then []
    else
      var init := keys[..|keys| - 1];
      var k := keys[|keys| - 1];
      assert keys == init + [k];
      var r := BucketNames(prefix, init);
      if BucketKeeps(prefix, k) then
        assert forall i :: 0 <= i < |r| ==> (r + [StripPrefix(prefix, k)])[i] == r[i];
        r + [StripPrefix(prefix, k)]
      else r
  }

  /** One more key extends the names by its stripped form exactly when the key is kept. */
  lemma BucketNamesStep(prefix: String, keys: seq<String>, k: String)
    ensures BucketNames(prefix, keys + [k])
            == BucketNames(prefix, keys) + (if BucketKeeps(prefix, k) then [StripPrefix(prefix, k)] else [])
  {
    assert (keys + [k])[..|keys|] == keys;
  }

  /**
    Two keys for the same map, one of them nested under the prefix twice,
    list the same name twice, so that map is fetched twice.
   */
  lemma DuplicateNameListedTwice()
    ensures BucketNames("maps/", ["maps/a.bsp.bz2", "maps/maps/a.bsp.bz2"]) == ["a.bsp.bz2", "a.bsp.bz2"]
  {
    var p: String := "maps/";
    var x: String := "a.bsp.bz2";
    var k1 := p + x;
    var k2 := p + p + x;
    assert k1 == "maps/a.bsp.bz2" && k2 == "maps/maps/a.bsp.bz2";
    assert '/' in p;
    assert x[|x| - |BucketSuffix|..] == BucketSuffix;
    FlatAndNestedKeysCollide(p, x);
    BucketNamesStep(p, [], k1);
    assert [] + [k1] == [k1];
    BucketNamesStep(p, [k1], k2);
    assert [k1] + [k2] == [k1, k2];
  }

  /** A flat key `p + x` and a nested key `p + p + x` are both kept, and both strip to `x`. */
  lemma FlatAndNestedKeysCollide(p: String, x: String)
    requires '/' in p && '/' !in x
    requires EndsWith(x, BucketSuffix)
    ensures BucketKeeps(p, p + x) && StripPrefix(p, p + x) == x
    ensures BucketKeeps(p, p + p + x) && StripPrefix(p, p + p + x) == x
  {
    NestedKeyListedFlat(p, x);
    LowerEndsWith(x, BucketSuffix);
    BucketSuffixIsLower();
    FlatKeyListed(p, x);
  }

  /** `Keys` takes the `Contents` elements in document order. */
  lemma KeysStep(contents: seq<seq<String>>, c: seq<String>)
    ensures Keys(contents + [c]) == Keys(contents) + c
  {
    assert (contents + [c])[..|contents|] == contents;
  }

  /** `S3Updater.parseMapList` on the parsed tree. */
  function ParseBucketList(prefix: String, doc: BucketDocument): (r: Result<seq<String>, ListError>)
    ensures doc.rootTag != ListBucketResultTag ==> r == Err(WrongRoot)
    ensures doc.rootTag == ListBucketResultTag ==>
              (r.Ok? <==> exists k :: k in Keys(doc.contents) && BucketKeeps(prefix, k))
    ensures r.Err? ==> r.error == WrongRoot || r.error == NoMapsFound
    ensures r.Ok? ==> |r.value| > 0 && r.value == BucketNames(prefix, Keys(doc.contents))
    ensures r.Ok? ==> forall k :: k in Keys(doc.contents) && BucketKeeps(prefix, k) ==> StripPrefix(prefix, k) in r.value
    ensures r.Ok? ==> forall i :: 0 <= i < |r.value| ==>
              '/' !in r.value[i]
              && exists k :: k in Keys(doc.contents) && KeyMatches(prefix, k) && r.value[i] == StripPrefix(prefix, k)
  {
    if doc.rootTag != ListBucketResultTag then Err(WrongRoot)
    else
      var names := BucketNames(prefix, Keys(doc.contents));
      if |names| == 0 then Err(NoMapsFound) else Ok(names)
  }

  /** `getMapList` of either provider: status check first, then the provider's parser. */
  function GetMapList(p: Provider, reply: Reply): (r: Result<seq<String>, ListError>)
    ensures reply.NoReply? ==> r == Err(RequestFailed)
    ensures reply.Reply? && reply.code >= 400 ==> r == Err(HttpError(reply.code))
    ensures p.WebList? && reply.Reply? && reply.code < 400 ==> r == ParseWebList(reply.anchors)
    ensures p.S3? && reply.Reply? && reply.code < 400 ==>
              r == (if reply.tree.None? then Err(MalformedXml) else ParseBucketList(p.keyPrefix, reply.tree.value))
  {
    match reply
    case NoReply => Err(RequestFailed)
    case Reply(code, anchors, tree) =>
      if code >= 400 then Err(HttpError(code))
      else match p
        case WebList => ParseWebList(anchors)
        case S3(prefix) =>
          match tree
          case None => Err(MalformedXml)
          case Some(doc) => ParseBucketList(prefix, doc)
  }

  /** Neither provider ever lists a name containing '/'. */
  lemma ListedNamesArePlain(p: Provider, reply: Reply)
    ensures GetMapList(p, reply).Ok? ==> forall f :: f in GetMapList(p, reply).value ==> '/' !in f
  {
    var r := GetMapList(p, reply);
    if r.Ok? {
      forall f | f in r.value
        ensures '/' !in f
      {
        if p.WebList? {
          assert multiset(r.value)[f] > 0;
        } else {
          var i :| 0 <= i < |r.value| && r.value[i] == f;
        }
      }
    }
  }

  /**
    A key nested one level below the prefix, `p + p + x`, loses both copies
    of a prefix containing '/' (and with them every '/'), so it is listed
    under the flat name `x` even though it sits in a nested "directory".
   */
  lemma NestedKeyListedFlat(p: String, x: String)
    requires '/' in p && '/' !in x
    requires EndsWith(x, BucketSuffix)
    ensures BucketKeeps(p, p + p + x)
    ensures StripPrefix(p, p + p + x) == x
  {
    NestedPrefixStripped(p, x);
    var key := p + p + x;
    assert StartsWith(key, p) by {
      assert key[..|p|] == p;
    }
    assert EndsWith(key, BucketSuffix) by {
      assert key[|key| - |BucketSuffix|..] == x[|x| - |BucketSuffix|..];
    }
    LowerEndsWith(key, BucketSuffix);
    BucketSuffixIsLower();
  }

  lemma NestedPrefixStripped(p: String, x: String)
    requires '/' in p && '/' !in x
    ensures StripPrefix(p, p + p + x) == x
  {
    assert p + p + x == p + (p + x);
    ReplaceLeadingPattern(p, p + x, "");
    ReplaceLeadingPattern(p, x, "");
    AbsentCharNoOccurrence('/', p, x);
    ReplaceAbsent(x, p, "");
  }

  lemma BucketSuffixIsLower()
    ensures Lower(BucketSuffix) == BucketSuffix
  {
  }

  /** The instance with prefix "maps/": "maps/maps/a.bsp.bz2" is listed as "a.bsp.bz2". */
  lemma NestedKeyExample()
    ensures BucketKeeps("maps/", "maps/maps/a.bsp.bz2")
    ensures StripPrefix("maps/", "maps/maps/a.bsp.bz2") == "a.bsp.bz2"
  {
    var p: String := "maps/";
    var x: String := "a.bsp.bz2";
    assert '/' in p;
    assert x[|x| - |BucketSuffix|..] == BucketSuffix;
    NestedKeyListedFlat(p, x);
    assert p + p + x == "maps/maps/a.bsp.bz2";
  }

  /** A key directly under a '/'-terminated prefix is listed under its own name. */
  lemma FlatKeyListed(p: String, x: String)
    requires '/' in p && '/' !in x
    requires EndsWith(Lower(x), BucketSuffix)
    ensures BucketKeeps(p, p + x)
    ensures StripPrefix(p, p + x) == x
  {
    ReplaceLeadingPattern(p, x, "");
    AbsentCharNoOccurrence('/', p, x);
    ReplaceAbsent(x, p, "");
    assert (p + x)[..|p|] == p;
    LowerConcat(p, x);
    var lk := Lower(p + x);
    assert lk[|lk| - |BucketSuffix|..] == Lower(x)[|x| - |BucketSuffix|..];
  }
}

=== FILE: seqs.dfy ===
/**
  Order-preserving list operations: the list comprehensions with an `if`
  filter and the `list(set(...))` de-duplication the updater uses.
  Every recursion peels the LAST element, matching a left-to-right loop.
 */
module Seqs {

  /** `xs` can be obtained from `ys` by deleting elements: order is kept. */
  ghost predicate Subseq<T>(xs: seq<T>, ys: seq<T>)
    decreases |ys|
  {
    if |xs| == 0 then true
    else if |ys| == 0 then false
    else (xs[|xs| - 1] == ys[|ys| - 1] && Subseq(xs[..|xs| - 1], ys[..|ys| - 1]))
         || Subseq(xs, ys[..|ys| - 1])
  }

  ghost predicate NoDuplicates<T>(s: seq<T>) {
    forall i, j :: 0 <= i < j < |s| ==> s[i] != s[j]
  }

  /** A subsequence is no longer than what it was taken from, and draws only on its elements. */
  lemma {:induction false} SubseqBounds<T>(xs: seq<T>, ys: seq<T>)
    requires Subseq(xs, ys)
    ensures |xs| <= |ys|
    ensures forall x :: x in xs ==> x in ys
    decreases |ys|
  {
    if |xs| > 0 {
      var ys' := ys[..|ys| - 1];
      if xs[|xs| - 1] == ys[|ys| - 1] && Subseq(xs[..|xs| - 1], ys') {
        SubseqBounds(xs[..|xs| - 1], ys');
        assert xs == xs[..|xs| - 1] + [xs[|xs| - 1]];
        assert ys == ys' + [ys[|ys| - 1]];
      } else {
        SubseqBounds(xs, ys');
        assert ys == ys' + [ys[|ys| - 1]];
      }
    }
  }

  /**
    `[x for x in s if keep(x)]`: the elements of `s` that pass `keep`, in
    their original order (see `FilterIsSubseq` and `FilterCounts`).
   */
  function Filter<T(!new)>(keep: T -> bool, s: seq<T>): (r: seq<T>)
    ensures |r| <= |s|
    ensures forall x :: x in r <==> x in s && keep(x)
    ensures (forall x :: x in s ==> !keep(x)) ==> r == []
    decreases |s|
  {
    if |s| == 0 then []
    else
      var init := s[..|s| - 1];
      var last := s[|s| - 1];
      assert s == init + [last];
      var r := Filter(keep, init);
      if keep(last) then r + [last] else r
  }

  /** The filtered elements keep their relative order. */
  lemma {:induction false} FilterIsSubseq<T(!new)>(keep: T -> bool, s: seq<T>)
    ensures Subseq(Filter(keep, s), s)
    decreases |s|
  {
    if |s| > 0 {
      var init := s[..|s| - 1];
      FilterIsSubseq(keep, init);
      var r := Filter(keep, init);
      if keep(s[|s| - 1]) {
        assert (r + [s[|s| - 1]])[..|r|] == r;
      }
    }
  }

  /** Each kept value occurs as often as in the input; every other value not at all. */
  lemma {:induction false} FilterCounts<T(!new)>(keep: T -> bool, s: seq<T>)
    ensures forall x :: multiset(Filter(keep, s))[x] == if keep(x) then multiset(s)[x] else 0
    decreases |s|
  {
    if |s| > 0 {
      var init := s[..|s| - 1];
      FilterCounts(keep, init);
      assert s == init + [s[|s| - 1]];
    }
  }

  /**
    `list(set(s))`, with the first occurrence of each element kept in place
    (Python leaves the order unspecified).
   */
  function Dedup<T(==,!new)>(s: seq<T>): (r: seq<T>)
    ensures forall x :: x in r <==> x in s
    ensures NoDuplicates(r)
    ensures |r| <= |s|
    decreases |s|
  {
    if |s| == 0 then []
    else
      var init := s[..|s| - 1];
      var last := s[|s| - 1];
      assert s == init + [last];
      var r := Dedup(init);
      if last in r then r else r + [last]
  }
}

=== FILE: strings.dfy ===
/**
  Byte-string helpers with the semantics of Python 2 `str`: `startswith`,
  `endswith`, ASCII-only `lower` and `replace` (which replaces every
  occurrence, scanning left to right).
 */
module Strings {

  type String = seq<char>

  predicate StartsWith(s: String, prefix: String) {
    |prefix| <= |s| && s[..|prefix|] == prefix
  }

  predicate EndsWith(s: String, suffix: String) {
    |suffix| <= |s| && s[|s| - |suffix|..] == suffix
  }

  /** `pat` occurs in `s` starting at index `i`. */
  predicate OccursAt(pat: String, s: String, i: int) {
    0 <= i && i + |pat| <= |s| && s[i..i + |pat|] == pat
  }

  /** `pat in s`, for a non-empty `pat`. */
  ghost predicate Occurs(pat: String, s: String) {
    exists i :: OccursAt(pat, s, i)
  }

  predicate IsAscii(s: String) {
    forall i :: 0 <= i < |s| ==> s[i] as int < 128
  }

  /** Python 2 `str.lower` on a byte string: only 'A'..'Z' change. */
  function LowerChar(c: char): char {
    if 'A' <= c <= 'Z' then (c as int + 32) as char else c
  }

  function Lower(s: String): (r: String)
    ensures |r| == |s|
  {
    seq(|s|, i requires 0 <= i < |s| => LowerChar(s[i]))
  }

  /**
    Python's `s.replace(pat, rep)`: every non-overlapping occurrence of `pat`,
    found left to right, is replaced by `rep`; an empty `pat` inserts `rep`
    before every character and at the end.
   */
  function ReplaceAll(s: String, pat: String, rep: String): (r: String)
    ensures forall c :: c in r ==> c in s || c in rep
    ensures |rep| == 0 && |pat| > 0 ==> |r| <= |s|
    decreases |s|
  {
    if |pat| == 0 then
      if |s| == 0 then rep else rep + [s[0]] + ReplaceAll(s[1..], pat, rep)
    else if |s| < |pat| then s
    else if s[..|pat|] == pat then rep + ReplaceAll(s[|pat|..], pat, rep)
    else [s[0]] + ReplaceAll(s[1..], pat, rep)
  }

  lemma LowerConcat(a: String, b: String)
    ensures Lower(a + b) == Lower(a) + Lower(b)
  {
    assert forall i :: 0 <= i < |a + b| ==> Lower(a + b)[i] == (Lower(a) + Lower(b))[i];
  }

  lemma LowerEndsWith(s: String, suffix: String)
    requires EndsWith(s, suffix)
    ensures EndsWith(Lower(s), Lower(suffix))
  {
    assert Lower(s)[|s| - |suffix|..] == Lower(suffix);
  }

  /** A character of `pat` that `s` lacks rules out every occurrence. */
  lemma AbsentCharNoOccurrence(c: char, pat: String, s: String)
    requires c in pat && c !in s
    ensures !Occurs(pat, s)
  {
  }

  /** An occurrence in the tail of `s` is an occurrence in `s`. */
  lemma OccursInTail(pat: String, s: String)
    requires |s| > 0 && Occurs(pat, s[1..])
    ensures Occurs(pat, s)
  {
    var i :| OccursAt(pat, s[1..], i);
    assert s[i + 1..i + 1 + |pat|] == s[1..][i..i + |pat|];
    assert OccursAt(pat, s, i + 1);
  }

  /** Replacing a pattern that does not occur changes nothing. */
  lemma {:induction false} ReplaceAbsent(s: String, pat: String, rep: String)
    requires |pat| > 0 && !Occurs(pat, s)
    ensures ReplaceAll(s, pat, rep) == s
    decreases |s|
  {
    if |s| >= |pat| {
      assert !OccursAt(pat, s, 0);
      if Occurs(pat, s[1..]) {
        OccursInTail(pat, s);
      }
      ReplaceAbsent(s[1..], pat, rep);
    }
  }

  /**
    When the first character of `pat` never recurs inside `pat`, an occurrence
    cannot straddle the end of `x`, so `(x + pat).replace(pat, rep)` is
    `x + rep` for any `x` free of `pat`.
   */
  lemma {:induction false} ReplaceTrailingPattern(x: String, pat: String, rep: String)
    requires |pat| > 0
    requires forall k :: 0 < k < |pat| ==> pat[k] != pat[0]
    requires !Occurs(pat, x)
    ensures ReplaceAll(x + pat, pat, rep) == x + rep
    decreases |x|
  {
    var s := x + pat;
    if |x| == 0 {
      assert s == pat;
      assert s[|pat|..] == [];
    } else {
      NoMatchBeforeTrailingPattern(x, pat);
      ReplaceSkipsChar(s, pat, rep);
      if Occurs(pat, x[1..]) {
        OccursInTail(pat, x);
      }
      assert s[1..] == x[1..] + pat;
      ReplaceTrailingPattern(x[1..], pat, rep);
      assert [x[0]] + x[1..] == x;
    }
  }

  /** Where `pat` does not start, the scan keeps one character and moves on. */
  lemma ReplaceSkipsChar(s: String, pat: String, rep: String)
    requires |pat| > 0 && |s| >= |pat| && s[..|pat|] != pat
    ensures ReplaceAll(s, pat, rep) == [s[0]] + ReplaceAll(s[1..], pat, rep)
  {
  }

  /** The scan over `x + pat` finds no match at index 0 while `x` is non-empty. */
  lemma NoMatchBeforeTrailingPattern(x: String, pat: String)
    requires |pat| > 0 && |x| > 0
    requires forall k :: 0 < k < |pat| ==> pat[k] != pat[0]
    requires !Occurs(pat, x)
    ensures (x + pat)[..|pat|] != pat
  {
    var s := x + pat;
    if |x| >= |pat| {
      assert s[..|pat|] == x[..|pat|];
      assert !OccursAt(pat, x, 0);
    } else {
      assert s[|x|] == pat[0];
      assert s[..|pat|][|x|] != pat[|x|];
    }
  }

  /** A leading occurrence of `pat` is replaced and the scan resumes after it. */
  lemma ReplaceLeadingPattern(pat: String, s: String, rep: String)
    requires |pat| > 0
    ensures ReplaceAll(pat + s, pat, rep) == rep + ReplaceAll(s, pat, rep)
  {
    assert (pat + s)[..|pat|] == pat;
    assert (pat + s)[|pat|..] == s;
  }
}

=== FILE: updater.dfy ===
/**
  The updater's configuration and one reconciliation pass
  (`MapUpdater._checkMaps`): fetch the listing, diff it against the maps
  directory, delete stale maps when configured to, download the missing
  ones and touch the sentinel.
 */
module Updater {
  import opened Wrappers
  import opened Strings
  import opened Seqs
  import opened Files
  import opened Listing
  import opened Diff
  import opened Fetch

  /** An updater instance: `mapsPath`, `fetchURL`, `deleteIfNotPresent` and the listing provider. */
  datatype Config = Config(mapsPath: String, fetchURL: String, deleteIfNotPresent: bool, provider: Provider, listURL: String)

  /** Which constructor `assert` failed. */
  datatype ConfigError = EmptyMapsPath | EmptyFetchURL | EmptyListURL | EmptyKeyPrefix

  /** `WebListUpdater(mapsPath, fetchURL, deleteIfNotPresent)`; the listing comes from `fetchURL` itself. */
  function NewWebListUpdater(mapsPath: String, fetchURL: String, deleteIfNotPresent: bool): (r: Result<Config, ConfigError>)
    ensures |mapsPath| == 0 ==> r == Err(EmptyMapsPath)
    ensures |mapsPath| > 0 && |fetchURL| == 0 ==> r == Err(EmptyFetchURL)
    ensures r.Ok? <==> |mapsPath| > 0 && |fetchURL| > 0
    ensures r.Ok? ==> r.value.mapsPath == mapsPath && r.value.fetchURL == fetchURL
                      && r.value.provider == WebList && r.value.listURL == fetchURL
                      && r.value.deleteIfNotPresent == deleteIfNotPresent
  {
    if |mapsPath| == 0 then Err(EmptyMapsPath)
    else if |fetchURL| == 0 then Err(EmptyFetchURL)
    else Ok(Config(mapsPath, fetchURL, deleteIfNotPresent, WebList, fetchURL))
  }

  /** `S3Updater(...)`: the base constructor's checks first, then `listURL` and `keyPrefix`. */
  function NewS3Updater(mapsPath: String, fetchURL: String, deleteIfNotPresent: bool, listURL: String, keyPrefix: String)
    : (r: Result<Config, ConfigError>)
    ensures |mapsPath| == 0 ==> r == Err(EmptyMapsPath)
    ensures |mapsPath| > 0 && |fetchURL| == 0 ==> r == Err(EmptyFetchURL)
    ensures |mapsPath| > 0 && |fetchURL| > 0 && |listURL| == 0 ==> r == Err(EmptyListURL)
    ensures |mapsPath| > 0 && |fetchURL| > 0 && |listURL| > 0 && |keyPrefix| == 0 ==> r == Err(EmptyKeyPrefix)
    ensures r.Ok? <==> |mapsPath| > 0 && |fetchURL| > 0 && |listURL| > 0 && |keyPrefix| > 0
    ensures r.Ok? ==> r.value.mapsPath == mapsPath && r.value.fetchURL == fetchURL
                      && r.value.provider == S3(keyPrefix) && r.value.listURL == listURL
                      && r.value.deleteIfNotPresent == deleteIfNotPresent
  {
    match NewWebListUpdater(mapsPath, fetchURL, deleteIfNotPresent)
    case Err(e) => Err(e)
    case Ok(base) =>
      if |listURL| == 0 then Err(EmptyListURL)
      else if |keyPrefix| == 0 then Err(EmptyKeyPrefix)
      else Ok(base.(provider := S3(keyPrefix), listURL := listURL))
  }

  datatype PassOutcome =
    | ListingFailed(error: ListError)  // `getMapList` failed: the pass ends there
    | NothingToFetch                   // no missing map: `_cb` returns without downloading
    | FetchFailed                      // a download raised, so `gatherResults` fails and `_allFinished` never runs
    | UpToDate                         // `_allFinished` ran and touched the sentinel

  /**
    What a pass did: the resulting filesystem, the maps it deleted, the
    names it fetched (in order) with each download's result, and how it ended.
   */
  datatype Pass = Pass(fs: FileSystem, deleted: set<String>, fetched: seq<String>,
                       results: seq<FetchResult>, outcome: PassOutcome)

  /** The remote names a pass works on; a failed listing has none, and the pass stops before using them. */
  function EffectiveListing(cfg: Config, reply: Reply, forced: seq<String>): seq<String>
  {
    match GetMapList(cfg.provider, reply)
    case Ok(remote) => EffectiveRemote(remote, forced)
    case Err(_) => []
  }

  /** `_checkMaps(forceDownloadMaps)`, with each download's outcome drawn from `world`. */
  function CheckMaps(cfg: Config, fs: FileSystem, reply: Reply, forced: seq<String>, world: String -> Download): (r: Pass)
    ensures GetMapList(cfg.provider, reply).Err? ==>
              r == Pass(fs, {}, [], [], ListingFailed(GetMapList(cfg.provider, reply).error))
    ensures GetMapList(cfg.provider, reply).Ok? ==>
              r == Reconcile(fs, EffectiveListing(cfg, reply, forced), cfg.deleteIfNotPresent, world)
  {
    match GetMapList(cfg.provider, reply)
    case Err(e) => Pass(fs, {}, [], [], ListingFailed(e))
    case Ok(remote) => Reconcile(fs, EffectiveRemote(remote, forced), cfg.deleteIfNotPresent, world)
  }

  /** The listing callback `_cb` of `_checkMaps`, given the effective remote names. */
  function Reconcile(fs: FileSystem, eff: seq<String>, deleteIfNotPresent: bool, world: String -> Download): (r: Pass)
    ensures r.fetched == Missing(eff, LocalMaps(fs))
    ensures r.deleted == (if deleteIfNotPresent then Stale(LocalMaps(fs), eff) else {})
    ensures |r.results| == |r.fetched|
    ensures r.outcome == NothingToFetch <==> |r.fetched| == 0
    ensures r.outcome == UpToDate <==> |r.fetched| > 0 && Raised !in r.results
    ensures r.outcome == FetchFailed <==> Raised in r.results
    ensures r.outcome == NothingToFetch ==> r.fs == fs.(maps := fs.maps - r.deleted)
    ensures r.outcome == UpToDate ==> SentinelName in r.fs.maps
    ensures forall n :: n in fs.maps && n !in r.deleted ==> n in r.fs.maps
  {
    var local := LocalMaps(fs);
    var missing := Missing(eff, local);
    var stale := Stale(local, eff);
    var deleted := if deleteIfNotPresent then stale else {};
    var fs1 := DeletePhase(fs, stale, deleteIfNotPresent);
    if |missing| == 0 then Pass(fs1, deleted, [], [], NothingToFetch)
    else
      var b := FetchAll(fs1, missing, world);
      if Raised in b.results then Pass(b.fs, deleted, missing, b.results, FetchFailed)
      else Pass(Touch(b.fs, SentinelName), deleted, missing, b.results, UpToDate)
  }

  /** Files the pass did not delete are still files afterwards: downloads and the sentinel only add or overwrite. */
  lemma ReconcileKeepsFiles(fs: FileSystem, eff: seq<String>, deleteIfNotPresent: bool, world: String -> Download)
    ensures var r := Reconcile(fs, eff, deleteIfNotPresent, world);
            forall n :: IsFile(fs, n) && n !in r.deleted ==> IsFile(r.fs, n)
  {
    var local := LocalMaps(fs);
    var stale := Stale(local, eff);
    var fs1 := DeletePhase(fs, stale, deleteIfNotPresent);
    var r := Reconcile(fs, eff, deleteIfNotPresent, world);
    assert forall n :: IsFile(fs, n) && n !in r.deleted ==> IsFile(fs1, n);
    var missing := Missing(eff, local);
    if |missing| > 0 {
      var b := FetchAll(fs1, missing, world);
      assert forall n :: IsFile(fs1, n) ==> IsFile(b.fs, n);
    }
  }

  /**
    A map the pass reports deleted is gone from the maps directory afterwards,
    unless one of the pass's own downloads installed a file under its name.
   */
  lemma DeletedMapsGone(fs: FileSystem, eff: seq<String>, deleteIfNotPresent: bool, world: String -> Download)
    ensures var r := Reconcile(fs, eff, deleteIfNotPresent, world);
            forall n :: n in r.deleted ==>
              n !in r.fs.maps || exists k :: 0 <= k < |r.fetched| && n == ExtractedName(r.fetched[k])
  {
    var local := LocalMaps(fs);
    var missing := Missing(eff, local);
    var fs1 := DeletePhase(fs, Stale(local, eff), deleteIfNotPresent);
    SentinelIsNotAMap();
    ScratchDirIsNotAMap();
    if |missing| > 0 {
      FetchAllNewChildren(fs1, missing, world);
    }
  }

  /** The scratch directory's name is not a map's. */
  lemma ScratchDirIsNotAMap()
    ensures !EndsWith(ScratchDirName, MapSuffix)
  {
    assert ScratchDirName[|ScratchDirName| - |MapSuffix|..] == "ater";
  }

  /** A pass keeps every staged file inside an existing scratch directory. */
  lemma ReconcileKeepsValid(fs: FileSystem, eff: seq<String>, deleteIfNotPresent: bool, world: String -> Download)
    requires Valid(fs)
    ensures Valid(Reconcile(fs, eff, deleteIfNotPresent, world).fs)
  {
    var local := LocalMaps(fs);
    var missing := Missing(eff, local);
    var fs1 := DeletePhase(fs, Stale(local, eff), deleteIfNotPresent);
    ScratchDirIsNotAMap();
    assert Valid(fs1);
    if |missing| > 0 {
      FetchAllKeepsValid(fs1, missing, world);
    }
  }

  /** The sentinel is not a map: it never enters the inventory. */
  lemma SentinelIsNotAMap()
    ensures !EndsWith(SentinelName, MapSuffix)
  {
    assert SentinelName[|SentinelName| - |MapSuffix|..] == "once";
  }

  /**
    After a pass whose downloads all installed settling names, every
    effective remote name is the key of some map in the inventory.
   */
  lemma PassCoversRemote(fs: FileSystem, eff: seq<String>, deleteIfNotPresent: bool, world: String -> Download)
    requires var r := Reconcile(fs, eff, deleteIfNotPresent, world);
             (forall k :: 0 <= k < |r.results| ==> r.results[k] == Installed)
             && (forall f :: f in r.fetched ==> SettlingName(f))
    ensures var r := Reconcile(fs, eff, deleteIfNotPresent, world);
            forall f :: f in eff ==> exists n :: n in LocalMaps(r.fs) && LocalKey(n) == Lower(f)
  {
    var r := Reconcile(fs, eff, deleteIfNotPresent, world);
    forall f | f in eff
      ensures exists n :: n in LocalMaps(r.fs) && LocalKey(n) == Lower(f)
    {
      if f in r.fetched {
        FetchedNameCovered(fs, eff, deleteIfNotPresent, world, f);
      } else {
        UnfetchedNameCovered(fs, eff, deleteIfNotPresent, world, f);
      }
    }
  }

  /** A fetched settling name whose download installed is covered by the map it installed. */
  lemma FetchedNameCovered(fs: FileSystem, eff: seq<String>, deleteIfNotPresent: bool, world: String -> Download, f: String)
    requires var r := Reconcile(fs, eff, deleteIfNotPresent, world);
             (forall k :: 0 <= k < |r.results| ==> r.results[k] == Installed)
             && f in r.fetched && SettlingName(f)
    ensures var r := Reconcile(fs, eff, deleteIfNotPresent, world);
            ExtractedName(f) in LocalMaps(r.fs) && LocalKey(ExtractedName(f)) == Lower(f)
  {
    var r := Reconcile(fs, eff, deleteIfNotPresent, world);
    var local := LocalMaps(fs);
    var missing := Missing(eff, local);
    var fs1 := DeletePhase(fs, Stale(local, eff), deleteIfNotPresent);
    var k :| 0 <= k < |missing| && missing[k] == f;
    var b := FetchAll(fs1, missing, world);
    FetchAllKeepsInstalled(fs1, missing, world);
    SettlingNameKey(f);
    assert IsFile(b.fs, ExtractedName(f));
  }

  /** A remote name the pass did not fetch already had a local map, which the pass kept. */
  lemma UnfetchedNameCovered(fs: FileSystem, eff: seq<String>, deleteIfNotPresent: bool, world: String -> Download, f: String)
    requires f in eff && f !in Reconcile(fs, eff, deleteIfNotPresent, world).fetched
    ensures var r := Reconcile(fs, eff, deleteIfNotPresent, world);
            exists n :: n in LocalMaps(r.fs) && LocalKey(n) == Lower(f)
  {
    var r := Reconcile(fs, eff, deleteIfNotPresent, world);
    var local := LocalMaps(fs);
    var n :| n in local && LocalKey(n) == Lower(f);
    assert n !in Stale(local, eff);
    ReconcileKeepsFiles(fs, eff, deleteIfNotPresent, world);
    assert IsFile(r.fs, n);
    assert n in LocalMaps(r.fs);
  }

  /** After such a pass with deletion on, no map in the inventory is stale. */
  lemma PassLeavesNothingStale(fs: FileSystem, eff: seq<String>, world: String -> Download)
    requires var r := Reconcile(fs, eff, true, world);
             forall f :: f in r.fetched ==> SettlingName(f)
    ensures var r := Reconcile(fs, eff, true, world);
            Stale(LocalMaps(r.fs), eff) == {}
  {
    var r := Reconcile(fs, eff, true, world);
    var local := LocalMaps(fs);
    var missing := Missing(eff, local);
    var stale := Stale(local, eff);
    var fs1 := DeletePhase(fs, stale, true);
    SentinelIsNotAMap();
    forall n | n in LocalMaps(r.fs)
      ensures exists f :: f in eff && Lower(f) == LocalKey(n)
    {
      if IsFile(fs1, n) {
        assert n in local && n !in stale;
      } else {
        var b := FetchAll(fs1, missing, world);
        assert IsFile(b.fs, n);
        FetchAllNewFiles(fs1, missing, world);
        var k :| 0 <= k < |missing| && n == ExtractedName(missing[k]);
        assert missing[k] in r.fetched;
        SettlingNameKey(missing[k]);
      }
    }
  }

  /**
    Reconciliation is idempotent: when every download of a pass installed a
    settling name, a second pass over the same remote names deletes
    nothing, fetches nothing and leaves the filesystem as it was.
   */
  lemma SecondPassIsNoOp(fs: FileSystem, eff: seq<String>, deleteIfNotPresent: bool,
                         world: String -> Download, world2: String -> Download)
    requires var r := Reconcile(fs, eff, deleteIfNotPresent, world);
             (forall k :: 0 <= k < |r.results| ==> r.results[k] == Installed)
             && (forall f :: f in r.fetched ==> SettlingName(f))
    ensures var r := Reconcile(fs, eff, deleteIfNotPresent, world);
            var r2 := Reconcile(r.fs, eff, deleteIfNotPresent, world2);
            r2.fetched == [] && r2.deleted == {} && r2.fs == r.fs && r2.outcome == NothingToFetch
  {
    var r := Reconcile(fs, eff, deleteIfNotPresent, world);
    var local2 := LocalMaps(r.fs);
    PassCoversRemote(fs, eff, deleteIfNotPresent, world);
    NothingMissingWhenCovered(eff, local2);
    if deleteIfNotPresent {
      PassLeavesNothingStale(fs, eff, world);
    }
    QuietPass(r.fs, eff, deleteIfNotPresent, world2);
  }

  /** When every remote name is some local map's key, nothing is missing. */
  lemma NothingMissingWhenCovered(eff: seq<String>, local: set<String>)
    requires forall f :: f in eff ==> exists n :: n in local && LocalKey(n) == Lower(f)
    ensures Missing(eff, local) == []
  {
    assert forall f :: f in eff ==> Lower(f) in LocalKeys(local);
  }

  /** A pass that finds nothing missing and nothing to delete changes nothing. */
  lemma QuietPass(fs: FileSystem, eff: seq<String>, deleteIfNotPresent: bool, world: String -> Download)
    requires Missing(eff, LocalMaps(fs)) == []
    requires deleteIfNotPresent ==> Stale(LocalMaps(fs), eff) == {}
    ensures var r := Reconcile(fs, eff, deleteIfNotPresent, world);
            r.fetched == [] && r.deleted == {} && r.fs == fs && r.outcome == NothingToFetch
  {
    assert fs.maps - {} == fs.maps;
  }

  /** The idempotence of `SecondPassIsNoOp`, for two calls of `_checkMaps` on the same listing reply and forced names. */
  lemma SecondCheckIsNoOp(cfg: Config, fs: FileSystem, reply: Reply, forced: seq<String>,
                          world: String -> Download, world2: String -> Download)
    requires var r := CheckMaps(cfg, fs, reply, forced, world);
             (forall k :: 0 <= k < |r.results| ==> r.results[k] == Installed)
             && (forall f :: f in r.fetched ==> SettlingName(f))
    ensures var r := CheckMaps(cfg, fs, reply, forced, world);
            var r2 := CheckMaps(cfg, r.fs, reply, forced, world2);
            r2.fetched == [] && r2.deleted == {} && r2.fs == r.fs
  {
    if GetMapList(cfg.provider, reply).Ok? {
      var eff := EffectiveListing(cfg, reply, forced);
      var r := Reconcile(fs, eff, cfg.deleteIfNotPresent, world);
      assert CheckMaps(cfg, fs, reply, forced, world) == r;
      SecondPassIsNoOp(fs, eff, cfg.deleteIfNotPresent, world, world2);
      assert CheckMaps(cfg, r.fs, reply, forced, world2) == Reconcile(r.fs, eff, cfg.deleteIfNotPresent, world2);
    }
  }

  /**
    Only a pass that ends `UpToDate` creates the sentinel: when a download
    raises, `gatherResults` fails and `_allFinished` never runs. (A download
    whose name extracts to the sentinel's name could create it.)
   */
  lemma NoSentinelUnlessUpToDate(fs: FileSystem, eff: seq<String>, deleteIfNotPresent: bool, world: String -> Download)
    requires SentinelName !in fs.maps
    requires forall f :: f in eff ==> ExtractedName(f) != SentinelName
    ensures var r := Reconcile(fs, eff, deleteIfNotPresent, world);
            r.outcome != UpToDate ==> SentinelName !in r.fs.maps
  {
    var local := LocalMaps(fs);
    var missing := Missing(eff, local);
    var fs1 := DeletePhase(fs, Stale(local, eff), deleteIfNotPresent);
    assert SentinelName !in fs1.maps;
    if |missing| > 0 {
      FetchAllNewChildren(fs1, missing, world);
      assert SentinelName != ScratchDirName;
      assert forall k :: 0 <= k < |missing| ==> missing[k] in eff;
      assert SentinelName !in FetchAll(fs1, missing, world).fs.maps;
    }
  }

  /**
    The sentinel does not certify the downloads: when every missing map's
    body breaks off, nothing is installed, yet the pass ends `UpToDate` and
    touches the sentinel, because `_eb` swallows each error.
   */
  lemma SentinelDespiteBrokenDownloads(fs: FileSystem, eff: seq<String>, deleteIfNotPresent: bool, world: String -> Download)
    requires |Missing(eff, LocalMaps(fs))| > 0
    requires !IsFile(fs, ScratchDirName)
    requires forall f :: f in Missing(eff, LocalMaps(fs)) ==> SafeName(f) && world(f).transfer.BodyFailed?
    ensures var r := Reconcile(fs, eff, deleteIfNotPresent, world);
            && r.outcome == UpToDate && SentinelName in r.fs.maps
            && forall k :: 0 <= k < |r.results| ==> r.results[k] == Discarded
  {
    var local := LocalMaps(fs);
    var missing := Missing(eff, local);
    var fs1 := DeletePhase(fs, Stale(local, eff), deleteIfNotPresent);
    assert !IsFile(fs1, ScratchDirName);
    FetchAllRaises(fs1, missing, world);
    FetchAllBrokenBodies(fs1, missing, world);
    var b := FetchAll(fs1, missing, world);
    forall k | 0 <= k < |b.results|
      ensures b.results[k] == Discarded
    {
      assert missing[k] in missing;
    }
    assert Raised !in b.results;
  }
}

=== FILE: wrappers.dfy ===
/** Failure-carrying results, standing in for the exceptions the updater raises. */
module Wrappers {

  /** An optional value: `None` where the source has nothing to offer. */
  datatype Option<+T> = None | Some(value: T)

  /** Either a computed value or the error the source would raise instead. */
  datatype Result<+T, +E> = Ok(value: T) | Err(error: E)
}
